=== FILE: README.md ===
# image-detailer, modelled in Dafny

image-detailer is two Node scripts that annotate a directory of media files
with machine-generated descriptions. `recognize.js` handles still images.
`recognizeAll.js` also handles videos, by sampling frames with ffmpeg. Both
scripts store the description in the file's `Comment`, `Keywords` and
`EXIF:ImageDescription` tags. A file that already has a truthy `Comment` is
skipped.

Under the I/O glue the scripts share a small sequential core. This project
models that core and proves properties of it.

- `text.dfy` (module `Text`): how a regular expression with the `i` flag compares
  characters, the case-folded suffix test, and `Array.prototype.join`.
- `classify.dfy` (module `Classify`): the extension filters of both scripts and the
  video test of `recognizeAll.js`.
- `frames.dfy` (module `Frames`): the frame stride `Math.floor(30 / numFrames)` and the
  frames that the filter `select='not(mod(n,stride))'` keeps.
- `job.dfy` (module `Job`): the per-file decision of both scripts. The inputs are
  the outcomes of the metadata read, the frame extraction, the description
  calls and the write. The outputs are a decision (`Skipped`, `Failed`,
  `NoWrite` or `Written`) and the list of effects the job had: description
  requests, frame deletions and metadata writes.
- `pool.dfy` (module `Pool`): the shared work list. A fixed number of workers drain
  it with atomic take steps (empty check, `pop()`, `processedCount++`). After the
  start loop, any busy worker may finish next, so the drain's contract holds
  for every interleaving.
- `batch.dfy` (module `Batch`): `processImages` of each script, composed from the
  parts above.

Five behaviours of the code shape the model:

- An error thrown while describing any one frame of a video aborts the whole
  file: `await describeImage(frame)` sits inside the file's single `try`.
  There is no per-frame isolation, and a video whose first frame fails is
  never annotated, even if a later frame would have succeeded
  (`Job.NoPartialResultAfterError`).
- Extracted frames are deleted only after their own description succeeds.
  Each deletion comes right after its frame's description, the frames go
  in listed order, and the write comes last (`Job.CollectOrder`,
  `Job.MediaEffectsInOrder`). The failing frame and all later frames stay on
  disk (`Job.Collect`, `Job.FrameErrorAbandonsFile`).
- `numFrames` does not bound the number of frames. The filter keeps every
  `stride`-th frame of the whole clip, which is the ceiling of
  `total / stride` frames (`Frames.SelectFrames`). With the default of 3, only
  a clip of 21 to 30 decoded frames yields exactly 3
  (`Frames.ThreeFramesOnlyFromShortClips`).
- The frames are described in the order `fs.readdir` lists the temporary
  directory, not in decoding order. The files are named `frame-1.jpg`,
  `frame-2.jpg`, and so on, and on Linux libuv's scandir sorts the names with
  `strcmp`. Once a clip yields ten or more frames, the list is
  `frame-1.jpg, frame-10.jpg, frame-2.jpg, ...`, so the fragments are not
  joined in decoding order. The frame numbers in `Described(j)` and
  `Deleted(j)` are positions in that listed order.
- `.gif` is in both of `recognizeAll.js`'s lists, so GIFs take the video path
  there. `recognize.js` describes them as stills (`Classify.MediaIsStillOrVideo`).

## Model

| member | source | states |
|---|---|---|
| Text.LowerCharMatches | recognizeAll.js:62 | Folding a character to lower case and comparing it with a lower-case pattern character (a letter, digit or dot) gives exactly the `i`-flag regex match: equal canonical (upper-cased) forms. |
| Text.HasLowerSuffix | recognizeAll.js:62 | Comparing the case-folded tail of a name with the literal accepts exactly the names that the escaped literal, end-anchored with the `i` flag, matches (`/\.jpg$/i` for ".jpg"), in both directions. |
| Text.Join | recognizeAll.js:97 | `join`: an empty array gives "". Otherwise the length is the sum of the parts' lengths plus one separator between each pair of neighbours, and the result starts with the first part. |
| Text.JoinSnoc | recognizeAll.js:88-97 | Pushing one more fragment and joining again appends the separator and that fragment to the previous join. |
| Text.JoinEmptyIff | recognizeAll.js:96-97 | A join of non-empty fragments is empty iff there are no fragments. So a non-empty `descriptions` array gives a truthy description. |
| Classify.MatchesAny | recognizeAll.js:62 | Trying the alternatives one by one returns true iff some alternative, preceded by a dot, ends the name under case-insensitive matching. This is what the alternation regex with the `i` flag tests. |
| Classify.AcceptsMedia | recognizeAll.js:60-62 | A name passes the `recognizeAll.js` filter iff it ends in a dot and one of jpg, jpeg, png, gif, bmp, tiff, mp4, mov, avi, ignoring case. |
| Classify.IsVideoName | recognizeAll.js:83 | A name takes the video path iff it ends in a dot and one of mp4, mov, avi, gif, ignoring case. |
| Classify.AcceptsStill | recognize.js:46-48 | A name passes the `recognize.js` filter iff it ends in a dot and one of jpg, jpeg, png, gif, bmp, tiff, ignoring case. |
| Classify.KindOf | recognizeAll.js:83-94 | The route of a name is Video exactly when the video regex matches it, and Image otherwise. |
| Classify.RegexMonotone | recognizeAll.js:62-83 | If every alternative of one list is in another list, a name the first regex matches is matched by the second. |
| Classify.VideoIsAccepted | recognizeAll.js:62-83 | Every name the video test matches also passed the filter. |
| Classify.StillIsAccepted | recognize.js:48 | Every name `recognize.js` accepts is accepted by `recognizeAll.js` as well. |
| Classify.MediaIsStillOrVideo | recognizeAll.js:62-83 | `recognizeAll.js` accepts exactly the still names plus the video names. A `.gif` name is accepted by both scripts and routed to the video path. |
| Classify.LastCharOfExtension | recognizeAll.js:62 | A name matching an extension ends, up to case, in that extension's last character. |
| Classify.StillRejectsMovies | recognize.js:48 | `.mp4`, `.mov` and `.avi` names are rejected by `recognize.js`, and accepted and routed to video by `recognizeAll.js`. |
| Classify.MismatchRejects | recognizeAll.js:62 | One character of the dotted extension that does not match the name's tail rules the extension out. |
| Classify.TruncatedExtensionRejected | recognizeAll.js:62 | `x.tif` is rejected: `tif` is not an alternative, and `tiff` needs one more character. |
| Classify.InnerExtensionRejected | recognizeAll.js:62 | `x.jpg.txt` is rejected: the extension has to end the name. |
| Classify.MixedCaseAccepted | recognizeAll.js:62-83 | `HOLIDAY.JpG` is accepted and routed as an image: case does not matter. |
| Frames.ModIsRemainder | recognizeAll.js:21 | The recursive remainder used for the filter's `mod(n, stride)` is the ordinary remainder `n % stride` for every frame number and positive stride. |
| Frames.Stride | recognizeAll.js:21 | The stride is the largest number that fits `numFrames` times into 30, which is `Math.floor(30 / numFrames)`. |
| Frames.DefaultStride | recognizeAll.js:15-21 | With the three frames the script asks for, the stride is 10. |
| Frames.SelectFrames | recognizeAll.js:19-24 | The kept frames are exactly the frames `n < total` with `mod(n, stride) == 0`: 0, stride, 2*stride and so on in increasing order, until the stride runs past the clip. Their number is the ceiling of `total / stride`: `(count - 1) * stride < total <= count * stride`. |
| Frames.ThreeFramesOnlyFromShortClips | recognizeAll.js:15-21 | With the stride for three frames, the frame count bounds of `SelectFrames` give exactly three frames iff the clip has 21 to 30 decoded frames. |
| Frames.KeptBetween | recognizeAll.js:21 | Between two consecutive kept frames, no frame is kept. |
| Job.UsableTexts | recognizeAll.js:86-93 | The truthy answers' texts in order. Every one is non-empty, and the list is empty iff no answer is truthy. |
| Job.UsableTextsAppend | recognizeAll.js:86-93 | The truthy texts of two runs of answers, one after the other, are the truthy texts of the first followed by those of the second. |
| Job.Collect | recognizeAll.js:86-90 | The frame loop. It finishes without error iff no answer throws, and then collects exactly the truthy texts in listed frame order. Otherwise it stops at the first throwing frame. The loop never writes. |
| Job.CollectDescribes | recognizeAll.js:86-90 | The frames whose description was requested are those up to and including the failing one, or all of them if none failed. |
| Job.CollectDeletes | recognizeAll.js:86-90 | The frames deleted are those before the failing one, or all of them if none failed, and only for extracted frames. |
| Job.CollectOrder | recognizeAll.js:86-90 | The frame loop describes frames in increasing order, never before the first frame it was given, and deletes a frame only right after that same frame's description. |
| Job.FramesFor | recognizeAll.js:83-94 | What gets described: the file itself for an image, the extracted frames for a video. The frames are missing exactly when a video's extraction throws. |
| Job.RunMedia | recognizeAll.js:75-111 | Skipped iff the read succeeds and Comment is truthy, and then there are no effects. Failed at read iff the read throws, and then there are no effects. Failed at extraction iff the job proceeds and the extraction throws, and then nothing is described. Failed at a frame iff the job proceeds and some answer throws. NoWrite iff nothing throws and no answer is truthy. Failed at write iff nothing before it throws, some answer is truthy and the write throws. Written iff read, extraction, every frame and the write all succeed and some answer is truthy. Then all three tags get the truthy fragments joined with "; ". A write effect happens iff the decision is Written, and it is then the last effect. |
| Job.RunStill | recognize.js:61-84 | Skipped iff the read succeeds and Comment is truthy, with no effects. Failed iff the read throws, or the job proceeds and either the description throws or a truthy description's write throws. Failed at the description iff that call throws. NoWrite iff the job proceeds, the description does not throw and is falsy. Written iff the read succeeds, Comment is falsy, the description is truthy and the write succeeds. Then all three tags get exactly that description. A failed job has no write effect. |
| Job.StillJobsAgree | recognizeAll.js:91-97 | On an image, `recognizeAll.js` behaves exactly like `recognize.js`: the same decision and the same effects. Joining one fragment leaves it unchanged. |
| Job.RerunSkips | recognizeAll.js:76-103 | After a write, a later run that reads back the written Comment skips the file with no effects. Re-runs are idempotent. |
| Job.FrameErrorAbandonsFile | recognizeAll.js:77-90 | For any falsy Comment, including an empty one, an error on frame k of a video fails the whole file at that frame. Frames 0..k are described, only frames before k are deleted, and nothing is written. |
| Job.CompleteVideoDescribesAll | recognizeAll.js:83-90 | When no frame of a video throws, every frame is described and then deleted, whatever the decision. |
| Job.MediaEffectsInOrder | recognizeAll.js:83-103 | Whatever the outcome, a job's frame effects come in frame order, each deletion right after the same frame's description, and a write, if any, is the final effect. |
| Job.JoinsTruthyFragments | recognizeAll.js:86-97 | Frames answering "a cat", nothing, "" and "a mat" produce the write "a cat; a mat". Falsy answers are dropped without failing the file. |
| Job.NoPartialResultAfterError | recognizeAll.js:86-89 | A throw on the first of three frames fails the file after a single description request, even though the second frame would have produced "cat". |
| Pool.TakeNext | recognizeAll.js:69-72 | A take on an empty list changes nothing and yields nothing. Otherwise it yields the last item, removes only that item and adds one to the counter. Counter plus list length is preserved. |
| Pool.Finish | recognizeAll.js:105-110 | A busy worker's job ends and its result is logged once. If the list is not empty, the worker takes the last item: the counter goes up by one, the take is logged and the worker stays busy with it. Otherwise the worker leaves and the list and log are unchanged. |
| Pool.FinishKeepsTakeLog | recognizeAll.js:105-110 | When a worker's job ends and its `finally` takes again, the take log remains the list's items in reverse order, counted 1, 2, ..., with only started workers taking. |
| Pool.FinishKeepsLedger | recognizeAll.js:105-110 | When a job ends, it is recorded once with its own result, and the worker's next take is distinct from every finished or running one. |
| Pool.FinishKeepsAccounted | recognizeAll.js:105-110 | Every take stays either finished or running, and finished plus running equals the number of takes. |
| Pool.FinishKeepsLive | recognizeAll.js:105-110 | While items remain, some worker is busy and will come back for them. Each step takes an item or retires a worker. |
| Pool.Start | recognizeAll.js:114-116 | Worker `j` of the start loop takes the last item, if there is one, bumps the counter, logs the take and becomes busy with it. On an empty list nothing changes. |
| Pool.StartStep | recognizeAll.js:114-116 | One turn of the start loop: worker `j` takes the next item from the end of the list if one is left, as take number `j`, and becomes busy with it. Otherwise nothing changes. |
| Pool.StartWorkers | recognizeAll.js:114-116 | The start loop: workers 0, 1, ... take the last, second-to-last, ... item, in order, until the list or the workers run out. Workers that find the list empty take nothing. |
| Pool.Drain | recognizeAll.js:64-118 | For any completion order, every item is taken exactly once, in reverse list order, and the i-th take reports count i + 1. The final count equals the list length. Only workers below min(N, length) take, and the first N takes are by workers 0..N-1. Every take's job finishes exactly once with its result. With zero workers, nothing happens. |
| Batch.Filter | recognizeAll.js:60-62 | Every name in the filtered list passes the script's extension test. |
| Batch.FilterCounts | recognizeAll.js:60-62 | The filtered list holds every accepted name exactly as often as the listing does, and no rejected name. |
| Batch.FilterKeepsOrder | recognizeAll.js:60-62 | Filtering preserves listing order: filtering a concatenation concatenates the filtered halves. |
| Batch.RecognizeAll | recognizeAll.js:59-121 | A whole run with 5 workers. Every accepted name is taken once, last first, by one of the 5 workers. Its job finishes exactly once with the `recognizeAll.js` decision for its kind, and the final counter is the number of accepted names. |
| Batch.Recognize | recognize.js:45-94 | A whole run with 10 workers over still names. Each is taken once, last first, and finishes exactly once with the `recognize.js` decision. The final counter is the number of accepted names. |

## Left out

- `describeImage`: the request to the description service, the base64 encoding and the response parsing (including `trim`) are a network call. Each call is an `Answer`: a text, no content, or a thrown error.
- The bodies of `exiftool.read`, `exiftool.write` and `exiftool.end` belong to an external tool. The read is an input outcome. A write is an effect when it succeeds and a thrown error when it fails. A failed write is assumed to leave the file unchanged.
- The `Comment` tag is modelled as absent or a string. Non-string tag values that the metadata tool might report, and their truthiness, are not modelled.
- `extractFrames` process handling is left out: the ffmpeg spawn, its exit code, the temporary directory, `readdir` of the frames and the downscale to 320 pixels. The extraction is an input: an error, or the frames in the order `readdir` returns them, each with its description outcome.
- `fs.unlinkSync` failing is not a separate outcome. It throws inside the same `try` as the frame's description, so it is folded into that frame's `Throws` answer, with the same decision.
- Frames.Stride: `numFrames = 0` (a stride of `Infinity` in JavaScript) is not modelled, because the script always passes 3.
- Frames.SelectFrames: a stride of 0 (`numFrames > 30`, where ffmpeg's `mod` is by zero) is not modelled, for the same reason.
- Real promise scheduling and `Promise.all`: the atomic take steps and an arbitrary completion order stand in for them. The drain returns when every worker has returned, which is what `Promise.all` waits for.
- The progress percentage (`toFixed(1)`, floating point) and all `console` output are left out. The count printed with each take is kept.
- `dotenv-safe` configuration, the `process.argv` default directory and the directory listing are left out. The listing is an input.

=== FILE: batch.dfy ===
/**
 * `processImages` of both scripts: the directory listing is filtered by
 * the script's extension test, the names are drained by the script's
 * fixed number of workers, and each take runs the script's job. The
 * listing itself and the metadata, extraction and description services
 * are inputs: `names` and `env`.
 */
module Batch {
  import Classify
  import Job
  import Pool

  /** `CONCURRENT_LIMIT` of `recognizeAll.js`. */
  const MediaWorkers: nat := 5

  /** `CONCURRENT_LIMIT` of `recognize.js`. */
  const StillWorkers: nat := 10

  /**
   * `Array.prototype.filter`: the accepted names, each as often as it
   * occurs in the listing, in listing order.
   */
  function Filter(names: seq<string>, accepts: string -> bool): (files: seq<string>)
    ensures forall i :: 0 <= i < |files| ==> accepts(files[i])
  {
    if |names| == 0 then []
    else (if accepts(names[0]) then [names[0]] else []) + Filter(names[1..], accepts)
  }

  /** Every accepted name survives the filter as often as it is listed; no other name does. */
  lemma {:induction false} FilterCounts(names: seq<string>, accepts: string -> bool)
    ensures forall x :: multiset(Filter(names, accepts))[x] == if accepts(x) then multiset(names)[x] else 0
  {
    if |names| > 0 {
      assert names == [names[0]] + names[1..];
      FilterCounts(names[1..], accepts);
    }
  }

  /** Filtering a listing in two halves filters each half in turn: the order is kept. */
  lemma {:induction false} FilterKeepsOrder(a: seq<string>, b: seq<string>, accepts: string -> bool)
    ensures Filter(a + b, accepts) == Filter(a, accepts) + Filter(b, accepts)
  {
    if |a| > 0 {
      assert (a + b)[0] == a[0];
      assert (a + b)[1..] == a[1..] + b;
      FilterKeepsOrder(a[1..], b, accepts);
      var head := if accepts(a[0]) then [a[0]] else [];
      assert Filter(a + b, accepts) == head + Filter(a[1..] + b, accepts);
      assert Filter(a, accepts) == head + Filter(a[1..], accepts);
    } else {
      assert a + b == b;
    }
  }

  /** The job `recognizeAll.js` runs on a taken name. */
  function MediaJob(env: string -> Job.Env): string -> Job.Decision {
    name => Job.RunMedia(Classify.KindOf(name), env(name)).decision
  }

  /** The job `recognize.js` runs on a taken name. */
  function StillJob(env: string -> Job.Env): string -> Job.Decision {
    name => Job.RunStill(env(name)).decision
  }

  /**
   * A whole run of `recognizeAll.js`: every accepted name is taken once,
   * from the end of the filtered list, by one of the five workers, and its
   * job finishes exactly once with the decision for its kind and
   * environment; the final counter equals the number of accepted names.
   */
  method RecognizeAll(names: seq<string>, env: string -> Job.Env)
    returns (files: seq<string>, takes: seq<Pool.Take<string>>, done: seq<Pool.Completion<Job.Decision>>, processed: nat)
    ensures files == Filter(names, Classify.AcceptsMedia)
    ensures processed == |files| && |takes| == |files| && |done| == |files|
    ensures forall i :: 0 <= i < |takes| ==> takes[i].item == files[|files| - 1 - i] && takes[i].worker < MediaWorkers
    ensures forall i :: 0 <= i < |takes| ==> Pool.Completed(done, i)
    ensures forall k, l :: 0 <= k < l < |done| ==> done[k].take != done[l].take
    ensures forall k :: 0 <= k < |done| ==>
              && done[k].take < |takes|
              && var name := takes[done[k].take].item;
                 done[k].result == Job.RunMedia(Classify.KindOf(name), env(name)).decision
  {
    files := Filter(names, Classify.AcceptsMedia);
    takes, done, processed := Pool.Drain(files, MediaWorkers, MediaJob(env));
  }

  /**
   * A whole run of `recognize.js`: the same drain with ten workers over the
   * still-image names, each job deciding on the file itself.
   */
  method Recognize(names: seq<string>, env: string -> Job.Env)
    returns (files: seq<string>, takes: seq<Pool.Take<string>>, done: seq<Pool.Completion<Job.Decision>>, processed: nat)
    ensures files == Filter(names, Classify.AcceptsStill)
    ensures processed == |files| && |takes| == |files| && |done| == |files|
    ensures forall i :: 0 <= i < |takes| ==> takes[i].item == files[|files| - 1 - i] && takes[i].worker < StillWorkers
    ensures forall i :: 0 <= i < |takes| ==> Pool.Completed(done, i)
    ensures forall k, l :: 0 <= k < l < |done| ==> done[k].take != done[l].take
    ensures forall k :: 0 <= k < |done| ==>
              && done[k].take < |takes|
              && done[k].result == Job.RunStill(env(takes[done[k].take].item)).decision
  {
    files := Filter(names, Classify.AcceptsStill);
    takes, done, processed := Pool.Drain(files, StillWorkers, StillJob(env));
  }
}

=== FILE: classify.dfy ===
/**
 * Which directory entries the two scripts process, and which of them
 * `recognizeAll.js` sends down the video path. Every test is a regular
 * expression of the shape `/\.(e1|e2|...)$/i`: a dot and one of the listed
 * extensions at the very end of the name, letters compared without regard
 * to case.
 */
module Classify {
  import Text

  /** The alternatives of the filter in `recognize.js`. */
  const StillExtensions: seq<string> := ["jpg", "jpeg", "png", "gif", "bmp", "tiff"]

  /** The alternatives of the filter in `recognizeAll.js`, as written (`gif` appears twice). */
  const AllExtensions: seq<string> := ["jpg", "jpeg", "png", "gif", "bmp", "tiff", "mp4", "mov", "avi", "gif"]

  /** The alternatives of the video test in `recognizeAll.js`. */
  const VideoExtensions: seq<string> := ["mp4", "mov", "avi", "gif"]

  datatype Kind = Image | Video

  /** Every character of an extension is a lower-case letter or a digit. */
  predicate LowerExtension(e: string) {
    forall k :: 0 <= k < |e| ==> ('a' <= e[k] <= 'z') || ('0' <= e[k] <= '9')
  }

  predicate LowerExtensions(exts: seq<string>) {
    forall i :: 0 <= i < |exts| ==> LowerExtension(exts[i])
  }

  /** The name ends in a dot followed by `e`, under the `i` flag. */
  predicate EndsWithExtension(name: string, e: string) {
    Text.EndsWithIgnoringCase(name, "." + e)
  }

  /** What `/\.(exts[0]|exts[1]|...)$/i.test(name)` means. */
  predicate RegexAccepts(name: string, exts: seq<string>) {
    exists i :: 0 <= i < |exts| && EndsWithExtension(name, exts[i])
  }

  /**
   * Tries the alternatives in order, folding the tail of the name to lower
   * case; true exactly when the regular expression matches.
   */
  function MatchesAny(name: string, exts: seq<string>): (b: bool)
    requires LowerExtensions(exts)
    ensures b <==> RegexAccepts(name, exts)
    decreases |exts|
  {
    if |exts| == 0 then false
    else
      var lit := "." + exts[0];
      assert forall k :: 0 <= k < |lit| ==> Text.IsLowerPatternChar(lit[k]) by {
        assert LowerExtension(exts[0]);
      }
      var rest := MatchesAny(name, exts[1..]);
      assert rest <==> exists i :: 1 <= i < |exts| && EndsWithExtension(name, exts[i]) by {
        forall i | 1 <= i < |exts|
          ensures exts[1..][i - 1] == exts[i]
        {
        }
      }
      Text.HasLowerSuffix(name, lit) || rest
  }

  /** The filter of `recognizeAll.js`: images and videos. */
  function AcceptsMedia(name: string): (b: bool)
    ensures b <==> RegexAccepts(name, AllExtensions)
  {
    MatchesAny(name, AllExtensions)
  }

  /** The video test of `recognizeAll.js`. */
  function IsVideoName(name: string): (b: bool)
    ensures b <==> RegexAccepts(name, VideoExtensions)
  {
    MatchesAny(name, VideoExtensions)
  }

  /** The filter of `recognize.js`: images only. */
  function AcceptsStill(name: string): (b: bool)
    ensures b <==> RegexAccepts(name, StillExtensions)
  {
    MatchesAny(name, StillExtensions)
  }

  /** The route `recognizeAll.js` gives an accepted name. */
  function KindOf(name: string): (k: Kind)
    ensures k == Video <==> RegexAccepts(name, VideoExtensions)
  {
    if IsVideoName(name) then Video else Image
  }

  /** Every alternative of `small` is an alternative of `big`. */
  lemma RegexMonotone(name: string, small: seq<string>, big: seq<string>)
    requires forall i :: 0 <= i < |small| ==> small[i] in big
    requires RegexAccepts(name, small)
    ensures RegexAccepts(name, big)
  {
  }

  /** A name routed to the video path is always one the filter let through. */
  lemma VideoIsAccepted(name: string)
    ensures IsVideoName(name) ==> AcceptsMedia(name)
  {
    if IsVideoName(name) {
      assert forall i :: 0 <= i < |VideoExtensions| ==> VideoExtensions[i] == AllExtensions[6 + i];
      RegexMonotone(name, VideoExtensions, AllExtensions);
    }
  }

  /** Everything the image-only script accepts, the combined script accepts too. */
  lemma StillIsAccepted(name: string)
    ensures AcceptsStill(name) ==> AcceptsMedia(name)
  {
    if AcceptsStill(name) {
      assert forall i :: 0 <= i < |StillExtensions| ==> StillExtensions[i] == AllExtensions[i];
      RegexMonotone(name, StillExtensions, AllExtensions);
    }
  }

  /** The dot-prefixed extension is the last |e| + 1 characters of the name. */
  lemma LastCharOfExtension(name: string, e: string)
    requires |e| > 0
    requires EndsWithExtension(name, e)
    ensures Text.Canonical(name[|name| - 1]) == Text.Canonical(e[|e| - 1])
  {
    var lit := "." + e;
    assert lit[|lit| - 1] == e[|e| - 1];
    assert Text.MatchesIgnoringCase(name[|name| - |lit| + (|lit| - 1)], lit[|lit| - 1]);
  }

  /**
   * The combined filter accepts a name iff it is a still-image name or a
   * video name; `.gif` names are both, so `recognizeAll.js` treats them as
   * video while `recognize.js` describes them as stills.
   */
  lemma MediaIsStillOrVideo(name: string)
    ensures AcceptsMedia(name) <==> AcceptsStill(name) || IsVideoName(name)
    ensures EndsWithExtension(name, "gif") ==> AcceptsStill(name) && IsVideoName(name) && KindOf(name) == Video
  {
  }

  /**
   * The image-only script rejects video names: `.mp4`, `.mov` and `.avi`
   * end in a character no still extension ends in.
   */
  lemma StillRejectsMovies(name: string)
    requires EndsWithExtension(name, "mp4") || EndsWithExtension(name, "mov") || EndsWithExtension(name, "avi")
    ensures !AcceptsStill(name)
    ensures AcceptsMedia(name) && KindOf(name) == Video
  {
    var e := if EndsWithExtension(name, "mp4") then "mp4" else if EndsWithExtension(name, "mov") then "mov" else "avi";
    LastCharOfExtension(name, e);
    if AcceptsStill(name) {
      var i :| 0 <= i < |StillExtensions| && EndsWithExtension(name, StillExtensions[i]);
      LastCharOfExtension(name, StillExtensions[i]);
      assert false;
    }
    var j := if e == "mp4" then 0 else if e == "mov" then 1 else 2;
    assert VideoExtensions[j] == e;
    VideoIsAccepted(name);
  }

  /** One differing character of the dotted extension rules the match out. */
  lemma MismatchRejects(name: string, e: string, k: nat)
    requires k < |e| + 1 <= |name|
    requires !Text.MatchesIgnoringCase(name[|name| - |e| - 1 + k], ("." + e)[k])
    ensures !EndsWithExtension(name, e)
  {
  }

  /** A shortened extension is not an accepted one. */
  lemma TruncatedExtensionRejected()
    ensures !AcceptsMedia("x.tif")
  {
    var name := "x.tif";
    forall i | 0 <= i < |AllExtensions|
      ensures !EndsWithExtension(name, AllExtensions[i])
    {
      var e := AllExtensions[i];
      if |e| == 4 {
        MismatchRejects(name, e, 0);
      } else if e[2] == 'f' {
        MismatchRejects(name, e, 1);
      } else {
        MismatchRejects(name, e, 3);
      }
    }
  }

  /** The extension must end the name: a further suffix hides it. */
  lemma InnerExtensionRejected()
    ensures !AcceptsMedia("x.jpg.txt")
  {
    var name := "x.jpg.txt";
    forall i | 0 <= i < |AllExtensions|
      ensures !EndsWithExtension(name, AllExtensions[i])
    {
      MismatchRejects(name, AllExtensions[i], |AllExtensions[i]|);
    }
  }

  /** Letters are compared without regard to case. */
  lemma MixedCaseAccepted()
    ensures AcceptsMedia("HOLIDAY.JpG") && KindOf("HOLIDAY.JpG") == Image
  {
    var name := "HOLIDAY.JpG";
    assert EndsWithExtension(name, AllExtensions[0]);
    forall i | 0 <= i < |VideoExtensions|
      ensures !EndsWithExtension(name, VideoExtensions[i])
    {
      MismatchRejects(name, VideoExtensions[i], |VideoExtensions[i]|);
    }
  }
}

=== FILE: frames.dfy ===
/**
 * Frame sampling of `extractFrames` in `recognizeAll.js`: the stride it
 * computes from the requested frame count, and the frames the filter
 * `select='not(mod(n,stride))'` keeps from a clip of `total` decoded frames
 * (numbered from 0).
 */
module Frames {

  /** The frame count `recognizeAll.js` asks for (its default, and the value it passes). */
  const DefaultFrameCount: nat := 3

  /** `Math.floor(30 / numFrames)`: the largest stride that fits `numFrames` times into 30. */
  function Stride(numFrames: nat): (s: nat)
    requires numFrames > 0
    ensures s * numFrames <= 30 < (s + 1) * numFrames
  {
    30 / numFrames
  }

  /** With the default of three frames the filter keeps every tenth frame. */
  lemma DefaultStride()
    ensures Stride(DefaultFrameCount) == 10
  {
  }

  /**
   * The remainder `mod(n, stride)` of the filter expression, for non-negative
   * frame numbers. It is written as repeated subtraction so that the proofs
   * below step from one multiple of the stride to the next by induction
   * instead of reasoning about `%` with a variable divisor; `ModIsRemainder`
   * shows it is the ordinary remainder.
   */
  function Mod(n: nat, stride: nat): nat
    requires stride > 0
    decreases n
  {
    if n < stride then n else Mod(n - stride, stride)
  }

  /** `Mod` agrees with `%`, which on natural numbers is ffmpeg's `mod`. */
  lemma {:induction false} ModIsRemainder(n: nat, stride: nat)
    requires stride > 0
    ensures Mod(n, stride) == n % stride
  {
    var q := MultiplesBelow(n, stride);
    RemainderUnique(n, stride, q, Mod(n, stride));
  }

  /** Repeated subtraction removes a whole number `q` of strides and leaves less than one. */
  lemma {:induction false} MultiplesBelow(n: nat, stride: nat) returns (q: nat)
    requires stride > 0
    ensures n == q * stride + Mod(n, stride) && Mod(n, stride) < stride
    decreases n
  {
    if n < stride {
      q := 0;
    } else {
      var q' := MultiplesBelow(n - stride, stride);
      q := q' + 1;
      assert q * stride == q' * stride + stride;
    }
  }

  /** A remainder below the divisor is the one `%` gives. */
  lemma RemainderUnique(n: nat, stride: nat, q: nat, r: nat)
    requires stride > 0 && r < stride && n == q * stride + r
    ensures n % stride == r
  {
    var q' := n / stride;
    Apart(q, q', stride, n % stride - r);
  }

  /** Two multiples of the stride closer than one stride are the same multiple. */
  lemma Apart(a: int, b: int, stride: nat, gap: int)
    requires stride > 0 && 0 < gap + stride && gap < stride && a * stride - b * stride == gap
    ensures a == b
  {
    if a != b {
      var d := if a > b then a - b else b - a;
      assert d * stride == (if a > b then gap else -gap) by {
        assert (a - b) * stride == a * stride - b * stride;
      }
      AtLeastOne(d, stride);
    }
  }

  /** A positive number of strides is at least one stride. */
  lemma {:induction false} AtLeastOne(d: nat, stride: nat)
    requires d > 0
    ensures d * stride >= stride
    decreases d
  {
    if d > 1 {
      AtLeastOne(d - 1, stride);
      assert d * stride == (d - 1) * stride + stride;
    }
  }

  /** The select filter keeps frame `n` iff `mod(n, stride)` is zero. */
  predicate Kept(n: nat, stride: nat)
    requires stride > 0
  {
    Mod(n, stride) == 0
  }

  /**
   * The frames the filter keeps, in decoding order: 0, stride, 2 * stride
   * and so on, up to the last frame of the clip. Their number is therefore
   * the ceiling of `total / stride`; it grows with the clip's length and
   * equals the requested count only for a clip of 21 to 30 frames when
   * three are asked for.
   */
  method SelectFrames(total: nat, stride: nat) returns (kept: seq<nat>)
    requires stride > 0
    ensures forall i :: 0 <= i < |kept| ==> kept[i] < total && Kept(kept[i], stride)
    ensures forall n :: 0 <= n < total && Kept(n, stride) ==> n in kept
    ensures |kept| > 0 ==> kept[0] == 0
    ensures forall i :: 0 < i < |kept| ==> kept[i] == kept[i - 1] + stride
    ensures total > 0 ==> |kept| > 0 && total <= kept[|kept| - 1] + stride
    ensures |kept| > 0 ==> (|kept| - 1) * stride < total
    ensures total <= |kept| * stride
  {
    kept := [];
    var n := 0;
    while n < total
      invariant Scanned(kept, n, stride, total)
      decreases total - n
    {
      ScanStep(kept, n, stride, total);
      kept := kept + [n];
      n := n + stride;
    }
    ScanDone(kept, n, stride, total);
    KeptCount(kept, stride, total);
  }

  /**
   * Frames in steps of the stride from frame 0, the last inside the clip and
   * within one stride of its end: there are `ceil(total / stride)` of them.
   */
  lemma KeptCount(kept: seq<nat>, stride: nat, total: nat)
    requires |kept| > 0 ==> kept[0] == 0
    requires forall i :: 0 < i < |kept| ==> kept[i] == kept[i - 1] + stride
    requires |kept| > 0 ==> kept[|kept| - 1] < total
    requires total > 0 ==> |kept| > 0 && total <= kept[|kept| - 1] + stride
    ensures |kept| > 0 ==> (|kept| - 1) * stride < total
    ensures total <= |kept| * stride
  {
    if |kept| > 0 {
      KeptPositions(kept, stride);
      var k: nat := |kept| - 1;
      assert kept[k] == k * stride;
      MulSucc(k, stride);
    }
  }

  /** Frames in steps of the stride from frame 0: the i-th is frame i * stride. */
  lemma {:induction false} KeptPositions(kept: seq<nat>, stride: nat)
    requires |kept| > 0 ==> kept[0] == 0
    requires forall i :: 0 < i < |kept| ==> kept[i] == kept[i - 1] + stride
    ensures forall i :: 0 <= i < |kept| ==> kept[i] == i * stride
    decreases |kept|
  {
    if |kept| > 1 {
      var front := kept[..|kept| - 1];
      assert forall i :: 0 <= i < |front| ==> front[i] == kept[i];
      KeptPositions(front, stride);
      var k: nat := |kept| - 2;
      assert kept[k] == front[k] == k * stride;
      assert kept[k + 1] == k * stride + stride;
      MulSucc(k, stride);
    }
  }

  /** One more stride. */
  lemma MulSucc(k: nat, stride: nat)
    ensures (k + 1) * stride == k * stride + stride
  {
  }

  /**
   * With the default request of three frames, a clip yields exactly three
   * frames only when it has 21 to 30 decoded frames: `count` is any number of
   * frames satisfying the count bounds of `SelectFrames` for the default
   * stride.
   */
  lemma ThreeFramesOnlyFromShortClips(total: nat, count: nat)
    requires count > 0 ==> (count - 1) * Stride(DefaultFrameCount) < total
    requires total <= count * Stride(DefaultFrameCount)
    ensures count == DefaultFrameCount <==> 21 <= total <= 30
  {
    DefaultStride();
  }

  /**
   * After scanning the frames below `n` (a kept frame number, or past the
   * clip): `kept` lists exactly the kept frames below `n`, in steps of the
   * stride from frame 0, and `n` is one stride past the last of them.
   */
  ghost predicate Scanned(kept: seq<nat>, n: nat, stride: nat, total: nat)
    requires stride > 0
  {
    Kept(n, stride) && Spaced(kept, n, stride, total) && Covers(kept, n, stride)
  }

  /** `kept` runs from frame 0 in steps of the stride, up to one stride below `n`, inside the clip. */
  ghost predicate Spaced(kept: seq<nat>, n: nat, stride: nat, total: nat)
    requires stride > 0
  {
    && (|kept| == 0 ==> n == 0)
    && (|kept| > 0 ==> kept[0] == 0 && n == kept[|kept| - 1] + stride)
    && (forall i :: 0 <= i < |kept| ==> kept[i] < total && kept[i] < n && Kept(kept[i], stride))
    && (forall i :: 0 < i < |kept| ==> kept[i] == kept[i - 1] + stride)
  }

  /** Keeping frame `n`, which is inside the clip, extends the scan by one stride. */
  lemma ScanStep(kept: seq<nat>, n: nat, stride: nat, total: nat)
    requires stride > 0 && n < total
    requires Scanned(kept, n, stride, total)
    ensures Scanned(kept + [n], n + stride, stride, total)
  {
    SpacedStep(kept, n, stride, total);
    NextStep(n, stride, kept);
  }

  /** Appending the kept frame `n` keeps the frames evenly spaced. */
  lemma SpacedStep(kept: seq<nat>, n: nat, stride: nat, total: nat)
    requires stride > 0 && n < total && Kept(n, stride)
    requires Spaced(kept, n, stride, total)
    ensures Spaced(kept + [n], n + stride, stride, total)
  {
    var grown := kept + [n];
    assert forall i :: 0 <= i < |kept| ==> grown[i] == kept[i];
    assert grown[|kept|] == n;
  }

  /** A scan that has passed the end of the clip has found every kept frame of it. */
  lemma ScanDone(kept: seq<nat>, n: nat, stride: nat, total: nat)
    requires stride > 0 && total <= n
    requires Scanned(kept, n, stride, total)
    ensures forall m :: 0 <= m < total && Kept(m, stride) ==> m in kept
    ensures total > 0 ==> |kept| > 0 && total <= kept[|kept| - 1] + stride
  {
  }

  /** Between two consecutive kept frames no frame is kept. */
  lemma {:induction false} KeptBetween(m: nat, n: nat, stride: nat)
    requires stride > 0 && Kept(n, stride)
    requires n <= m < n + stride && Kept(m, stride)
    ensures m == n
    decreases n
  {
    if n >= stride {
      KeptBetween(m - stride, n - stride, stride);
    }
  }

  /** Every frame below `n` that the filter keeps is in `kept`. */
  ghost predicate Covers(kept: seq<nat>, n: nat, stride: nat)
    requires stride > 0
  {
    forall m :: 0 <= m < n && Kept(m, stride) ==> m in kept
  }

  /** Appending the kept frame `n` accounts for every kept frame below the next multiple. */
  lemma NextStep(n: nat, stride: nat, kept: seq<nat>)
    requires stride > 0 && Kept(n, stride)
    requires Covers(kept, n, stride)
    ensures Covers(kept + [n], n + stride, stride)
    ensures Kept(n + stride, stride)
  {
    forall m | n <= m < n + stride && Kept(m, stride)
      ensures m == n
    {
      KeptBetween(m, n, stride);
    }
    NextMultiple(n, stride);
  }

  lemma NextMultiple(n: nat, stride: nat)
    requires stride > 0 && Kept(n, stride)
    ensures Kept(n + stride, stride)
  {
  }
}

=== FILE: job.dfy ===
/**
 * What one worker does with one file: the body of `processNext` after the
 * take. The metadata tool, the frame extractor and the description service
 * are not modelled; what they return (or that they throw) is an input, the
 * `Env`, and what the job does to the outside world is returned as a list
 * of effects beside its decision.
 */
module Job {
  import Text
  import Classify
  import opened Optional

  /** The `Comment` tag as the metadata tool reports it. */
  datatype Comment = Absent | Present(text: string)

  /** JavaScript truthiness of the tag: present and not the empty string. */
  predicate Truthy(c: Comment) {
    c.Present? && c.text != ""
  }

  /**
   * What one call of `describeImage` produces: a text (already trimmed by
   * the service client), no content at all, or a thrown error.
   */
  datatype Answer = Description(text: string) | NoContent | Throws

  /** The answer is truthy, so it is kept as a description fragment. */
  predicate Usable(a: Answer) {
    a.Description? && a.text != ""
  }

  datatype ReadOutcome = ReadThrows | ReadOk(comment: Comment)

  /**
   * What extracting frames from a video gives: an error, or the frames in
   * the order `fs.readdir` lists them (by file name, so `frame-10.jpg`
   * comes before `frame-2.jpg`), each represented by the answer the
   * description service gives for it.
   */
  datatype Extraction = ExtractThrows | Extracted(frames: seq<Answer>)

  /**
   * Everything the outside world contributes to one job: the metadata read,
   * the frame extraction (consulted for videos), the answer for the file
   * itself (consulted for images) and whether the metadata write succeeds.
   */
  datatype Env = Env(read: ReadOutcome, extraction: Extraction, original: Answer, writeSucceeds: bool)

  /** The three tags a write sets. */
  datatype Fields = Fields(comment: string, keywords: string, imageDescription: string)

  /** Where a failed job threw. */
  datatype Stage = AtRead | AtExtract | AtDescribe(frame: nat) | AtWrite

  datatype Decision = Skipped | Failed(stage: Stage) | NoWrite | Written(fields: Fields)

  /**
   * Observable actions of a job: a description request for frame `frame`
   * (frame 0 is the file itself for an image), the deletion of an extracted
   * frame, and a metadata write that took effect.
   */
  datatype Effect = Described(frame: nat) | Deleted(frame: nat) | Wrote(fields: Fields)

  datatype Run = Run(decision: Decision, effects: seq<Effect>)

  /** The separator between the fragments of a video's description. */
  const Separator: string := "; "

  /** The same description in all three tags. */
  function Uniform(d: string): Fields {
    Fields(d, d, d)
  }

  /** No answer in the list is a thrown error. */
  predicate NoThrow(answers: seq<Answer>) {
    forall i :: 0 <= i < |answers| ==> !answers[i].Throws?
  }

  /** The truthy answers' texts, in order: the reference for what gets joined. */
  function UsableTexts(answers: seq<Answer>): (texts: seq<string>)
    ensures forall i :: 0 <= i < |texts| ==> texts[i] != ""
    ensures |texts| == 0 <==> forall i :: 0 <= i < |answers| ==> !Usable(answers[i])
  {
    if |answers| == 0 then []
    else (if Usable(answers[0]) then [answers[0].text] else []) + UsableTexts(answers[1..])
  }

  /** The truthy texts of two runs of answers, one after the other, are those of the whole run. */
  lemma {:induction false} UsableTextsAppend(a: seq<Answer>, b: seq<Answer>)
    ensures UsableTexts(a + b) == UsableTexts(a) + UsableTexts(b)
    decreases |a|
  {
    if |a| == 0 {
      assert a + b == b;
    } else {
      var head := if Usable(a[0]) then [a[0].text] else [];
      assert (a + b)[1..] == a[1..] + b;
      calc {
        UsableTexts(a + b);
        head + UsableTexts(a[1..] + b);
        { UsableTextsAppend(a[1..], b); }
        head + (UsableTexts(a[1..]) + UsableTexts(b));
        (head + UsableTexts(a[1..])) + UsableTexts(b);
        UsableTexts(a) + UsableTexts(b);
      }
    }
  }

  /** What the frame loop leaves behind: fragments, effects and the frame that threw, if any. */
  datatype Collected = Collected(texts: seq<string>, effects: seq<Effect>, thrownAt: Option<nat>)

  /** Number of frames whose description was requested. */
  function Attempted(c: Collected, base: nat, n: nat): nat {
    if c.thrownAt.Some? then c.thrownAt.value + 1 else base + n
  }

  /** Number of frames that were described without an error. */
  function Finished(c: Collected, base: nat, n: nat): nat {
    if c.thrownAt.Some? then c.thrownAt.value else base + n
  }

  /**
   * The frame loop of `recognizeAll.js` from frame `base` on: each frame is
   * described, a truthy answer is kept, and (for extracted frames) the
   * frame file is then deleted. A thrown error ends the loop at once: the
   * failing frame and all later ones are neither described further nor
   * deleted.
   */
  function Collect(answers: seq<Answer>, deleteFrames: bool, base: nat): (c: Collected)
    ensures c.thrownAt.None? <==> NoThrow(answers)
    ensures c.thrownAt.Some? ==>
              var k := c.thrownAt.value - base;
              && base <= c.thrownAt.value && k < |answers| && answers[k].Throws?
              && forall i :: 0 <= i < k ==> !answers[i].Throws?
    ensures c.thrownAt.None? ==> c.texts == UsableTexts(answers)
    ensures forall e :: e in c.effects ==> !e.Wrote?
    decreases |answers|
  {
    if |answers| == 0 then Collected([], [], None)
    else if answers[0].Throws? then Collected([], [Described(base)], Some(base))
    else
      var rest := Collect(answers[1..], deleteFrames, base + 1);
      assert forall i :: 1 <= i < |answers| ==> answers[1..][i - 1] == answers[i];
      var kept := if Usable(answers[0]) then [answers[0].text] else [];
      var cleanup := if deleteFrames then [Deleted(base)] else [];
      Collected(kept + rest.texts, [Described(base)] + cleanup + rest.effects, rest.thrownAt)
  }

  /**
   * The frames the loop requested descriptions for are those up to and
   * including the one that threw, or all of them if none threw.
   */
  lemma {:induction false} CollectDescribes(answers: seq<Answer>, deleteFrames: bool, base: nat)
    ensures var c := Collect(answers, deleteFrames, base);
            forall j: nat :: Described(j) in c.effects <==> base <= j < Attempted(c, base, |answers|)
    decreases |answers|
  {
    if |answers| > 0 && !answers[0].Throws? {
      var c := Collect(answers, deleteFrames, base);
      var rest := Collect(answers[1..], deleteFrames, base + 1);
      var cleanup := if deleteFrames then [Deleted(base)] else [];
      CollectDescribes(answers[1..], deleteFrames, base + 1);
      DescribesStep(c, rest, cleanup, base, |answers|);
    }
  }

  /** One successful frame in front of the rest of the loop adds one requested description. */
  lemma DescribesStep(c: Collected, rest: Collected, cleanup: seq<Effect>, base: nat, n: nat)
    requires n > 0
    requires c.effects == [Described(base)] + cleanup + rest.effects
    requires c.thrownAt == rest.thrownAt && (rest.thrownAt.Some? ==> base < rest.thrownAt.value)
    requires forall e :: e in cleanup ==> e.Deleted?
    requires forall j: nat :: Described(j) in rest.effects <==> base + 1 <= j < Attempted(rest, base + 1, n - 1)
    ensures forall j: nat :: Described(j) in c.effects <==> base <= j < Attempted(c, base, n)
  {
    assert Attempted(c, base, n) == Attempted(rest, base + 1, n - 1);
    forall j: nat
      ensures Described(j) in c.effects <==> j == base || Described(j) in rest.effects
    {
      assert Described(j) !in cleanup;
    }
  }

  /**
   * The frames the loop deleted are those before the one that threw (all
   * of them if none threw), and none at all for an image.
   */
  lemma {:induction false} CollectDeletes(answers: seq<Answer>, deleteFrames: bool, base: nat)
    ensures var c := Collect(answers, deleteFrames, base);
            forall j: nat :: Deleted(j) in c.effects <==> deleteFrames && base <= j < Finished(c, base, |answers|)
    decreases |answers|
  {
    if |answers| > 0 && !answers[0].Throws? {
      var c := Collect(answers, deleteFrames, base);
      var rest := Collect(answers[1..], deleteFrames, base + 1);
      var cleanup := if deleteFrames then [Deleted(base)] else [];
      CollectDeletes(answers[1..], deleteFrames, base + 1);
      DeletesStep(c, rest, deleteFrames, base, |answers|);
    }
  }

  /** One successful frame in front of the rest of the loop adds one deletion, for a video. */
  lemma DeletesStep(c: Collected, rest: Collected, deleteFrames: bool, base: nat, n: nat)
    requires n > 0
    requires c.effects == [Described(base)] + (if deleteFrames then [Deleted(base)] else []) + rest.effects
    requires c.thrownAt == rest.thrownAt && (rest.thrownAt.Some? ==> base < rest.thrownAt.value)
    requires forall j: nat :: Deleted(j) in rest.effects <==> deleteFrames && base + 1 <= j < Finished(rest, base + 1, n - 1)
    ensures forall j: nat :: Deleted(j) in c.effects <==> deleteFrames && base <= j < Finished(c, base, n)
  {
    assert Finished(c, base, n) == Finished(rest, base + 1, n - 1);
    forall j: nat
      ensures Deleted(j) in c.effects <==> (deleteFrames && j == base) || Deleted(j) in rest.effects
    {
    }
  }

  /**
   * Frame effects from frame `base` on, in the order they happened: no
   * write among them, descriptions in increasing frame order, and every
   * deletion right after the description of the same frame.
   */
  ghost predicate FrameOrdered(effects: seq<Effect>, base: nat) {
    && (forall i :: 0 <= i < |effects| ==> !effects[i].Wrote? && base <= effects[i].frame)
    && (forall i :: 0 <= i < |effects| && effects[i].Deleted? ==> 0 < i && effects[i - 1] == Described(effects[i].frame))
    && (forall i, j :: 0 <= i < j < |effects| && effects[i].Described? && effects[j].Described? ==>
          effects[i].frame < effects[j].frame)
  }

  /** The loop describes the frames in order and deletes each one only after describing it. */
  lemma {:induction false} CollectOrder(answers: seq<Answer>, deleteFrames: bool, base: nat)
    ensures FrameOrdered(Collect(answers, deleteFrames, base).effects, base)
    decreases |answers|
  {
    if |answers| > 0 && !answers[0].Throws? {
      var rest := Collect(answers[1..], deleteFrames, base + 1);
      CollectOrder(answers[1..], deleteFrames, base + 1);
      OrderStep(rest.effects, deleteFrames, base);
    }
  }

  /** Describing frame `base` (and then deleting it) in front of later frames keeps the order. */
  lemma OrderStep(rest: seq<Effect>, deleteFrames: bool, base: nat)
    requires FrameOrdered(rest, base + 1)
    ensures FrameOrdered([Described(base)] + (if deleteFrames then [Deleted(base)] else []) + rest, base)
  {
    var head := [Described(base)] + (if deleteFrames then [Deleted(base)] else []);
    var effects := head + rest;
    assert forall i :: |head| <= i < |effects| ==> effects[i] == rest[i - |head|];
  }

  /** The frames to describe: the extracted ones for a video, the file itself for an image. */
  function FramesFor(kind: Classify.Kind, env: Env): (frames: Option<seq<Answer>>)
    ensures frames.None? <==> kind == Classify.Video && env.extraction.ExtractThrows?
    ensures kind == Classify.Image ==> frames == Some([env.original])
    ensures kind == Classify.Video && frames.Some? ==> frames.value == env.extraction.frames
  {
    match kind
    case Image => Some([env.original])
    case Video => if env.extraction.Extracted? then Some(env.extraction.frames) else None
  }

  /** The metadata read succeeds and finds no truthy comment, so the job goes on to describe. */
  predicate Proceeds(env: Env) {
    env.read.ReadOk? && !Truthy(env.read.comment)
  }

  /**
   * The conditions under which `recognizeAll.js` writes: the read succeeds
   * and finds no truthy comment, the frames are available, no description
   * request throws, at least one answer is truthy and the write succeeds.
   */
  predicate WritesFor(kind: Classify.Kind, env: Env) {
    && Proceeds(env)
    && FramesFor(kind, env).Some?
    && NoThrow(FramesFor(kind, env).value)
    && |UsableTexts(FramesFor(kind, env).value)| > 0
    && env.writeSucceeds
  }

  /**
   * One job of `recognizeAll.js`. A truthy comment skips the file with no
   * effect; any thrown error (read, extraction, any frame, write) fails the
   * whole file with no write; a write puts the truthy fragments, joined with
   * "; " in the order the frames were listed, into all three tags.
   */
  function RunMedia(kind: Classify.Kind, env: Env): (run: Run)
    ensures run.decision == Skipped <==> env.read.ReadOk? && Truthy(env.read.comment)
    ensures run.decision.Skipped? ==> run.effects == []
    ensures run.decision == Failed(AtRead) <==> env.read.ReadThrows?
    ensures run.decision == Failed(AtRead) ==> run.effects == []
    ensures run.decision == Failed(AtExtract) <==> Proceeds(env) && FramesFor(kind, env).None?
    ensures run.decision == Failed(AtExtract) ==> run.effects == []
    ensures (run.decision.Failed? && run.decision.stage.AtDescribe?) <==>
              Proceeds(env) && FramesFor(kind, env).Some? && !NoThrow(FramesFor(kind, env).value)
    ensures run.decision == NoWrite <==>
              && Proceeds(env) && FramesFor(kind, env).Some? && NoThrow(FramesFor(kind, env).value)
              && |UsableTexts(FramesFor(kind, env).value)| == 0
    ensures run.decision == Failed(AtWrite) <==>
              && Proceeds(env) && FramesFor(kind, env).Some? && NoThrow(FramesFor(kind, env).value)
              && |UsableTexts(FramesFor(kind, env).value)| > 0 && !env.writeSucceeds
    ensures run.decision.Written? <==> WritesFor(kind, env)
    ensures run.decision.Written? ==>
              run.decision.fields == Uniform(Text.Join(UsableTexts(FramesFor(kind, env).value), Separator))
    ensures (exists e :: e in run.effects && e.Wrote?) <==> run.decision.Written?
    ensures run.decision.Written? ==> |run.effects| > 0 && run.effects[|run.effects| - 1] == Wrote(run.decision.fields)
  {
    match env.read
    case ReadThrows => Run(Failed(AtRead), [])
    case ReadOk(comment) =>
      if Truthy(comment) then Run(Skipped, [])
      else
        var frames := FramesFor(kind, env);
        if frames.None? then Run(Failed(AtExtract), [])
        else
          var c := Collect(frames.value, kind == Classify.Video, 0);
          if c.thrownAt.Some? then Run(Failed(AtDescribe(c.thrownAt.value)), c.effects)
          else if |c.texts| == 0 then Run(NoWrite, c.effects)
          else
            var fields := Uniform(Text.Join(c.texts, Separator));
            assert (c.effects + [Wrote(fields)])[|c.effects|] == Wrote(fields);
            if env.writeSucceeds then Run(Written(fields), c.effects + [Wrote(fields)])
            else Run(Failed(AtWrite), c.effects)
  }

  /**
   * One job of `recognize.js`: a truthy comment skips, a truthy description
   * is written unchanged into all three tags, anything thrown fails the
   * file with no write.
   */
  function RunStill(env: Env): (run: Run)
    ensures run.decision == Skipped <==> env.read.ReadOk? && Truthy(env.read.comment)
    ensures run.decision.Skipped? || run.decision == Failed(AtRead) ==> run.effects == []
    ensures run.decision.Written? <==> Proceeds(env) && Usable(env.original) && env.writeSucceeds
    ensures run.decision.Written? ==> run.decision.fields == Uniform(env.original.text)
    ensures run.decision.Failed? <==>
              env.read.ReadThrows? || (Proceeds(env) && (env.original.Throws? || (Usable(env.original) && !env.writeSucceeds)))
    ensures run.decision == Failed(AtDescribe(0)) <==> Proceeds(env) && env.original.Throws?
    ensures run.decision == NoWrite <==> Proceeds(env) && !env.original.Throws? && !Usable(env.original)
    ensures run.decision.Failed? ==> forall e :: e in run.effects ==> !e.Wrote?
  {
    match env.read
    case ReadThrows => Run(Failed(AtRead), [])
    case ReadOk(comment) =>
      if Truthy(comment) then Run(Skipped, [])
      else if env.original.Throws? then Run(Failed(AtDescribe(0)), [Described(0)])
      else if !Usable(env.original) then Run(NoWrite, [Described(0)])
      else
        var fields := Uniform(env.original.text);
        if env.writeSucceeds then Run(Written(fields), [Described(0), Wrote(fields)])
        else Run(Failed(AtWrite), [Described(0)])
  }

  /**
   * On an image the two scripts do exactly the same thing: joining a single
   * fragment leaves it unchanged, so `recognizeAll.js` writes what
   * `recognize.js` writes.
   */
  lemma StillJobsAgree(env: Env)
    ensures RunMedia(Classify.Image, env) == RunStill(env)
  {
    var c := Collect([env.original], false, 0);
    if !env.original.Throws? {
      assert [env.original][1..] == [];
      assert Collect([], false, 1) == Collected([], [], None);
      assert c.texts == (if Usable(env.original) then [env.original.text] else []);
      assert c.effects == [Described(0)];
    }
  }

  /**
   * A write leaves a truthy comment behind, so running the job again on the
   * written file skips it and changes nothing.
   */
  lemma RerunSkips(kind: Classify.Kind, env: Env, later: Env)
    requires RunMedia(kind, env).decision.Written?
    requires later.read == ReadOk(Present(RunMedia(kind, env).decision.fields.comment))
    ensures RunMedia(kind, later) == Run(Skipped, [])
  {
    var frames := FramesFor(kind, env).value;
    Text.JoinEmptyIff(UsableTexts(frames), Separator);
  }

  /**
   * An error on any frame of a video abandons the whole file: nothing is
   * written, the frames after it are never described, and only the frames
   * before it are deleted.
   */
  lemma FrameErrorAbandonsFile(env: Env, k: nat)
    requires Proceeds(env) && env.extraction.Extracted?
    requires k < |env.extraction.frames| && env.extraction.frames[k].Throws?
    requires forall i :: 0 <= i < k ==> !env.extraction.frames[i].Throws?
    ensures RunMedia(Classify.Video, env).decision == Failed(AtDescribe(k))
    ensures forall j: nat :: Described(j) in RunMedia(Classify.Video, env).effects <==> j <= k
    ensures forall j: nat :: Deleted(j) in RunMedia(Classify.Video, env).effects <==> j < k
  {
    var c := Collect(env.extraction.frames, true, 0);
    assert c.thrownAt == Some(k);
    assert RunMedia(Classify.Video, env) == Run(Failed(AtDescribe(k)), c.effects);
    CollectDescribes(env.extraction.frames, true, 0);
    CollectDeletes(env.extraction.frames, true, 0);
  }

  /**
   * When every frame of a video is described without an error, each frame
   * is described once and then deleted, whether or not anything is written.
   */
  lemma CompleteVideoDescribesAll(env: Env)
    requires Proceeds(env) && env.extraction.Extracted? && NoThrow(env.extraction.frames)
    ensures forall j: nat :: Described(j) in RunMedia(Classify.Video, env).effects <==> j < |env.extraction.frames|
    ensures forall j: nat :: Deleted(j) in RunMedia(Classify.Video, env).effects <==> j < |env.extraction.frames|
  {
    var frames := env.extraction.frames;
    var c := Collect(frames, true, 0);
    var run := RunMedia(Classify.Video, env);
    assert c.thrownAt == None;
    CollectDescribes(frames, true, 0);
    CollectDeletes(frames, true, 0);
    forall j: nat
      ensures Described(j) in run.effects <==> Described(j) in c.effects
      ensures Deleted(j) in run.effects <==> Deleted(j) in c.effects
    {
      if run.effects != c.effects {
        assert run.effects == c.effects + [Wrote(run.decision.fields)];
      }
    }
  }

  /**
   * The effects of a job come in the order the code causes them: the
   * frames are described in order, each deletion comes right after the
   * description of the same frame, and a write comes last, after every
   * frame.
   */
  lemma MediaEffectsInOrder(kind: Classify.Kind, env: Env)
    ensures var run := RunMedia(kind, env);
            FrameOrdered(if run.decision.Written? then run.effects[..|run.effects| - 1] else run.effects, 0)
  {
    var run := RunMedia(kind, env);
    var frames := FramesFor(kind, env);
    if Proceeds(env) && frames.Some? {
      var c := Collect(frames.value, kind == Classify.Video, 0);
      CollectOrder(frames.value, kind == Classify.Video, 0);
      if run.decision.Written? {
        assert run.effects == c.effects + [Wrote(run.decision.fields)];
        assert run.effects[..|run.effects| - 1] == c.effects;
      }
    }
  }

  /**
   * Truthy fragments are joined in listed frame order; falsy answers are dropped
   * without failing the file.
   */
  lemma JoinsTruthyFragments()
    ensures RunMedia(Classify.Video, Env(ReadOk(Absent), Extracted([Description("a cat"), NoContent, Description(""), Description("a mat")]), NoContent, true)).decision
            == Written(Uniform("a cat; a mat"))
  {
    var frames := [Description("a cat"), NoContent, Description(""), Description("a mat")];
    var env := Env(ReadOk(Absent), Extracted(frames), NoContent, true);
    assert frames[1..] == [NoContent, Description(""), Description("a mat")];
    assert frames[1..][1..] == [Description(""), Description("a mat")];
    assert frames[1..][1..][1..] == [Description("a mat")];
    assert UsableTexts(frames[1..][1..][1..]) == ["a mat"];
    assert UsableTexts(frames) == ["a cat", "a mat"];
    assert NoThrow(frames);
    assert WritesFor(Classify.Video, env);
    assert ["a cat", "a mat"][1..] == ["a mat"];
    assert Text.Join(["a cat", "a mat"], Separator) == "a cat; a mat";
  }

  /**
   * A thrown error on the first frame fails the file even when a later
   * frame would have been described: there is no per-frame isolation.
   */
  lemma NoPartialResultAfterError()
    ensures RunMedia(Classify.Video, Env(ReadOk(Absent), Extracted([Throws, Description("cat"), Throws]), NoContent, true))
            == Run(Failed(AtDescribe(0)), [Described(0)])
  {
  }
}

=== FILE: optional.dfy ===
/** A value that may be missing, shared by the job and the work list. */
module Optional {
  datatype Option<T> = None | Some(value: T)
}

=== FILE: pool.dfy ===
/**
 * The shared work list of both scripts and the workers that drain it.
 *
 * Each worker runs `processNext`: if the list is empty it returns;
 * otherwise it pops the last name and increments the progress counter,
 * with no `await` in between, so on the single-threaded event loop this
 * take is atomic. The job then runs (with suspensions); when it ends, the
 * `finally` block takes the next name if the list is not empty, again
 * without an intervening `await`. The start loop calls `processNext` once
 * per worker before anything is awaited, so the first takes go to workers
 * 0, 1, ... in order. After that, jobs finish in any order: the drain below
 * lets an arbitrary busy worker finish at every step, so its contract holds
 * for every interleaving.
 */
module Pool {
  import opened Optional

  /** The list and the progress counter, the only state the workers share. */
  datatype Queue<T> = Queue(files: seq<T>, processed: nat)

  /** One take: which worker took which item, and the counter value it then reports. */
  datatype Take<T> = Take(worker: nat, item: T, count: nat)

  /** One finished job: the index of its take in the take log, and its result. */
  datatype Completion<R> = Completion(take: nat, result: R)

  /**
   * The synchronous prefix of `processNext`: an empty list is left alone
   * and the counter is not touched; otherwise the last item is removed and
   * the counter goes up by one. Either way counter plus list length is
   * unchanged and no item is lost or invented.
   */
  function TakeNext<T>(q: Queue<T>): (r: (Option<T>, Queue<T>))
    ensures r.0.None? <==> q.files == []
    ensures r.1.processed + |r.1.files| == q.processed + |q.files|
    ensures r.0.None? ==> r.1 == q
    ensures r.0.Some? ==> r.1.files + [r.0.value] == q.files && r.1.processed == q.processed + 1
  {
    if |q.files| == 0 then (None, q)
    else
      var last := |q.files| - 1;
      assert q.files[..last] + [q.files[last]] == q.files;
      (Some(q.files[last]), Queue(q.files[..last], q.processed + 1))
  }

  /** Some completion in `done` is the job of take number `i`. */
  ghost predicate Completed<R>(done: seq<Completion<R>>, i: nat) {
    exists k :: 0 <= k < |done| && done[k].take == i
  }

  /** Some busy worker is running the job of take number `i`. */
  ghost predicate Running(busy: map<nat, nat>, i: nat) {
    exists w :: w in busy && busy[w] == i
  }

  function Min(a: nat, b: nat): nat {
    if a <= b then a else b
  }

  /**
   * Everything the drain keeps track of: the shared queue, the log of takes
   * in the order they happened, the log of finished jobs in the order they
   * finished, and for every busy worker the index of the take it is
   * working on.
   */
  datatype State<T, R> = State(q: Queue<T>, takes: seq<Take<T>>, done: seq<Completion<R>>, busy: map<nat, nat>)

  /** The takes so far are the last |takes| items in reverse, counted 1, 2, ... */
  ghost predicate TakeLog<T, R>(files: seq<T>, workers: nat, s: State<T, R>) {
    && s.q.processed == |s.takes| && |s.takes| <= |files|
    && s.q.files == files[..|files| - |s.takes|]
    && (workers == 0 ==> s.takes == [])
    && (|s.takes| < workers ==> s.q.files == [])
    && (forall i :: 0 <= i < |s.takes| ==> s.takes[i].item == files[|files| - 1 - i] && s.takes[i].count == i + 1)
    && (forall i :: 0 <= i < |s.takes| ==> s.takes[i].worker < Min(workers, |files|))
    && (forall i :: 0 <= i < |s.takes| && i < workers ==> s.takes[i].worker == i)
  }

  /** Busy workers run distinct takes that are not finished; finished jobs carry the job's result. */
  ghost predicate Ledger<T, R>(job: T -> R, s: State<T, R>) {
    && (forall w :: w in s.busy ==> s.busy[w] < |s.takes| && s.takes[s.busy[w]].worker == w)
    && (forall k :: 0 <= k < |s.done| ==> s.done[k].take < |s.takes| && s.done[k].result == job(s.takes[s.done[k].take].item))
    && (forall k, l :: 0 <= k < l < |s.done| ==> s.done[k].take != s.done[l].take)
    && (forall k, w :: 0 <= k < |s.done| && w in s.busy ==> s.done[k].take != s.busy[w])
  }

  /** Every take's job is finished or running, and their numbers add up. */
  ghost predicate Accounted<T, R>(s: State<T, R>) {
    && (forall i :: 0 <= i < |s.takes| ==> Completed(s.done, i) || Running(s.busy, i))
    && |s.done| + |s.busy.Keys| == |s.takes|
  }

  /** A non-empty list always has a busy worker that will come back for it. */
  ghost predicate Live<T, R>(workers: nat, s: State<T, R>) {
    workers > 0 && s.q.files != [] ==> s.busy.Keys != {}
  }

  ghost predicate Inv<T, R>(files: seq<T>, workers: nat, job: T -> R, s: State<T, R>) {
    TakeLog(files, workers, s) && Ledger(job, s) && Accounted(s) && Live(workers, s)
  }

  /**
   * Busy worker `w` finishes its job; its `finally` block then takes the
   * next item if there is one, or the worker returns. The job's result is
   * logged once; a take removes the last item, bumps the counter and keeps
   * the worker busy with the new take; otherwise the worker leaves.
   */
  function Finish<T, R>(s: State<T, R>, w: nat, job: T -> R): (r: State<T, R>)
    requires w in s.busy && s.busy[w] < |s.takes|
    ensures r.done == s.done + [Completion(s.busy[w], job(s.takes[s.busy[w]].item))]
    ensures s.q.files == [] ==> r.q == s.q && r.takes == s.takes && r.busy == s.busy - {w}
    ensures s.q.files != [] ==>
              var last := s.q.files[|s.q.files| - 1];
              && r.q.files + [last] == s.q.files && r.q.processed == s.q.processed + 1
              && r.takes == s.takes + [Take(w, last, r.q.processed)]
              && r.busy == s.busy[w := |s.takes|]
  {
    var t := s.busy[w];
    var done := s.done + [Completion(t, job(s.takes[t].item))];
    var (next, q) := TakeNext(s.q);
    if next.Some? then
      var takes := s.takes + [Take(w, next.value, q.processed)];
      State(q, takes, done, s.busy[w := |takes| - 1])
    else State(q, s.takes, done, s.busy - {w})
  }

  /** A finishing step keeps the take log. */
  lemma FinishKeepsTakeLog<T, R>(files: seq<T>, workers: nat, job: T -> R, s: State<T, R>, w: nat)
    requires TakeLog(files, workers, s) && w in s.busy
    requires s.busy[w] < |s.takes| && s.takes[s.busy[w]].worker == w
    ensures TakeLog(files, workers, Finish(s, w, job))
  {
    if s.q.files != [] {
      FinishTakes(files, workers, job, s, w);
    }
  }

  /** A worker that finds the list non-empty after its job logs the next take. */
  lemma FinishTakes<T, R>(files: seq<T>, workers: nat, job: T -> R, s: State<T, R>, w: nat)
    requires TakeLog(files, workers, s) && w in s.busy && s.q.files != []
    requires s.busy[w] < |s.takes| && s.takes[s.busy[w]].worker == w
    ensures TakeLog(files, workers, Finish(s, w, job))
  {
    var t := |s.takes|;
    assert workers <= t < |files|;
    var (next, q) := TakeNext(s.q);
    assert q.files == (q.files + [next.value])[..|q.files|];
    assert q.files == files[..|files| - t - 1];
    var s' := Finish(s, w, job);
    assert s'.takes == s.takes + [Take(w, files[|files| - 1 - t], t + 1)];
    assert forall i :: 0 <= i < t ==> s'.takes[i] == s.takes[i];
  }

  /** A finishing step keeps the ledger. */
  lemma FinishKeepsLedger<T, R>(files: seq<T>, workers: nat, job: T -> R, s: State<T, R>, w: nat)
    requires Ledger(job, s) && w in s.busy
    ensures Ledger(job, Finish(s, w, job))
  {
    var s' := Finish(s, w, job);
    var t := s.busy[w];
    assert s'.done == s.done + [Completion(t, job(s.takes[t].item))];
    assert forall x :: 0 <= x < |s.takes| ==> s'.takes[x] == s.takes[x];
    forall k, l | 0 <= k < l < |s'.done|
      ensures s'.done[k].take != s'.done[l].take
    {
      if l == |s.done| {
        assert s'.done[k] == s.done[k];
      }
    }
    forall v | v in s'.busy
      ensures s'.busy[v] < |s'.takes| && s'.takes[s'.busy[v]].worker == v
    {
      if v != w {
        assert s'.busy[v] == s.busy[v];
      }
    }
    forall k, v | 0 <= k < |s'.done| && v in s'.busy
      ensures s'.done[k].take != s'.busy[v]
    {
      if v == w {
        assert s'.busy[v] == |s.takes|;
      } else {
        assert s'.busy[v] == s.busy[v];
        if k == |s.done| {
          assert s.takes[s.busy[v]].worker == v;
        }
      }
    }
  }

  /** A finishing step keeps every take accounted for. */
  lemma FinishKeepsAccounted<T, R>(files: seq<T>, workers: nat, job: T -> R, s: State<T, R>, w: nat)
    requires Accounted(s) && w in s.busy && s.busy[w] < |s.takes|
    ensures Accounted(Finish(s, w, job))
  {
    var s' := Finish(s, w, job);
    var t := s.busy[w];
    if s.q.files == [] {
      assert s'.busy.Keys == s.busy.Keys - {w};
    } else {
      assert s'.busy.Keys == s.busy.Keys;
    }
    assert s'.done[|s.done|].take == t;
    forall i | 0 <= i < |s'.takes|
      ensures Completed(s'.done, i) || Running(s'.busy, i)
    {
      if i == t {
        assert s'.done[|s.done|].take == i;
      } else if i < |s.takes| {
        if Completed(s.done, i) {
          var k :| 0 <= k < |s.done| && s.done[k].take == i;
          assert s'.done[k].take == i;
        } else {
          var v :| v in s.busy && s.busy[v] == i;
          assert v != w;
          assert v in s'.busy && s'.busy[v] == i;
        }
      } else {
        assert s'.busy[w] == i;
      }
    }
  }

  /** A finishing step keeps a busy worker around while items remain, and makes progress. */
  lemma FinishKeepsLive<T, R>(files: seq<T>, workers: nat, job: T -> R, s: State<T, R>, w: nat)
    requires Inv(files, workers, job, s) && w in s.busy
    ensures Live(workers, Finish(s, w, job))
    ensures |Finish(s, w, job).q.files| < |s.q.files| ||
            (Finish(s, w, job).q.files == s.q.files && Finish(s, w, job).busy.Keys < s.busy.Keys)
  {
  }

  /**
   * After the start loop has run workers 0 .. j - 1: the first min(j, |files|)
   * items from the end were taken, take i by worker i, and exactly those
   * workers are busy, each with its own take; nothing has finished yet.
   */
  ghost predicate Started<T, R>(files: seq<T>, j: nat, s: State<T, R>) {
    && |s.takes| == Min(j, |files|) && s.done == []
    && s.q.processed == |s.takes| && s.q.files == files[..|files| - |s.takes|]
    && (forall i :: 0 <= i < |s.takes| ==> s.takes[i] == Take(i, files[|files| - 1 - i], i + 1))
    && (forall w: nat :: w in s.busy <==> w < |s.takes|)
    && (forall w :: w in s.busy ==> s.busy[w] == w)
    && |s.busy.Keys| == |s.takes|
  }

  /**
   * Worker `j` of the start loop: it takes the last item if there is one and
   * becomes busy with that take; on an empty list it returns and nothing
   * changes.
   */
  function Start<T, R>(s: State<T, R>, j: nat): (r: State<T, R>)
    ensures s.q.files == [] ==> r == s
    ensures s.q.files != [] ==>
              var last := s.q.files[|s.q.files| - 1];
              && r.q.files + [last] == s.q.files && r.q.processed == s.q.processed + 1
              && r.takes == s.takes + [Take(j, last, r.q.processed)]
              && r.busy == s.busy[j := |s.takes|] && r.done == s.done
  {
    var (next, q) := TakeNext(s.q);
    if next.Some? then
      var takes := s.takes + [Take(j, next.value, q.processed)];
      State(q, takes, s.done, s.busy[j := |takes| - 1])
    else s.(q := q)
  }

  /** Starting worker `j` extends the start loop by one worker. */
  lemma StartStep<T, R>(files: seq<T>, j: nat, s: State<T, R>)
    requires Started(files, j, s)
    ensures Started(files, j + 1, Start(s, j))
  {
    if s.q.files == [] {
      assert |s.takes| == |files|;
    } else {
      StartTakes(files, j, s);
    }
  }

  /** A worker that finds an item at start becomes busy with take number `j`. */
  lemma StartTakes<T, R>(files: seq<T>, j: nat, s: State<T, R>)
    requires Started(files, j, s) && s.q.files != []
    ensures Started(files, j + 1, Start(s, j))
  {
    var t := |s.takes|;
    assert t == j < |files|;
    var (next, q) := TakeNext(s.q);
    assert q.files == (q.files + [next.value])[..|q.files|];
    assert q.files == files[..|files| - t - 1];
    BusyGrows(s.busy, s.busy[t := t], t);
  }

  /** Adding worker `t` to the workers 0 .. t - 1, each on its own take, gives workers 0 .. t. */
  lemma BusyGrows(busy: map<nat, nat>, grown: map<nat, nat>, t: nat)
    requires forall w: nat :: w in busy <==> w < t
    requires forall w :: w in busy ==> busy[w] == w
    requires |busy.Keys| == t && grown == busy[t := t]
    ensures forall w: nat :: w in grown <==> w < t + 1
    ensures forall w :: w in grown ==> grown[w] == w
    ensures |grown.Keys| == t + 1
  {
    assert grown.Keys == busy.Keys + {t};
  }

  /** When the start loop is over, the drain invariant holds. */
  lemma StartedInv<T, R>(files: seq<T>, workers: nat, job: T -> R, s: State<T, R>)
    requires Started(files, workers, s)
    ensures Inv(files, workers, job, s)
  {
    forall i | 0 <= i < |s.takes|
      ensures Running(s.busy, i)
    {
      assert i in s.busy && s.busy[i] == i;
    }
  }

  /**
   * The start loop: worker `j` takes an item if one is left and returns at
   * once otherwise, so workers 0 .. min(workers, |files|) - 1 take one item
   * each, in order.
   */
  method StartWorkers<T, R>(files: seq<T>, workers: nat, job: T -> R) returns (s: State<T, R>)
    ensures Inv(files, workers, job, s)
    ensures |s.takes| == Min(workers, |files|) && s.done == []
  {
    s := State(Queue(files, 0), [], [], map[]);
    var j := 0;
    while j < workers
      invariant j <= workers && Started(files, j, s)
    {
      StartStep(files, j, s);
      s := Start(s, j);
      j := j + 1;
    }
    StartedInv(files, workers, job, s);
  }

  /**
   * Starts `workers` workers on `files` and runs them until every worker
   * has returned, letting busy workers finish in any order. The i-th take
   * removes `files[|files| - 1 - i]` and reports count `i + 1`; every item
   * is taken exactly once; the first takes go to workers 0, 1, ... in
   * order, and a worker that finds the list empty at start takes nothing;
   * every take's job completes exactly once, with `job`'s result for its
   * item.
   */
  method Drain<T, R>(files: seq<T>, workers: nat, job: T -> R)
    returns (takes: seq<Take<T>>, done: seq<Completion<R>>, processed: nat)
    ensures workers == 0 ==> takes == [] && done == [] && processed == 0
    ensures workers > 0 ==> |takes| == |files| && |done| == |files| && processed == |files|
    ensures forall i :: 0 <= i < |takes| ==> takes[i].item == files[|files| - 1 - i] && takes[i].count == i + 1
    ensures forall i :: 0 <= i < |takes| ==> takes[i].worker < Min(workers, |files|)
    ensures forall i :: 0 <= i < |takes| && i < workers ==> takes[i].worker == i
    ensures forall i :: 0 <= i < |takes| ==> Completed(done, i)
    ensures forall k :: 0 <= k < |done| ==> done[k].take < |takes| && done[k].result == job(takes[done[k].take].item)
    ensures forall k, l :: 0 <= k < l < |done| ==> done[k].take != done[l].take
  {
    var s := StartWorkers(files, workers, job);
    while s.busy.Keys != {}
      invariant Inv(files, workers, job, s)
      decreases |s.q.files|, s.busy.Keys
    {
      var w :| w in s.busy;
      FinishKeepsTakeLog(files, workers, job, s, w);
      FinishKeepsLedger(files, workers, job, s, w);
      FinishKeepsAccounted(files, workers, job, s, w);
      FinishKeepsLive(files, workers, job, s, w);
      s := Finish(s, w, job);
    }
    takes, done, processed := s.takes, s.done, s.q.processed;
  }
}

=== FILE: text.dfy ===
/**
 * String helpers shared by the two scripts: the ASCII case fold used to
 * compare file-name suffixes, the character canonicalisation a JavaScript
 * regular expression with the `i` flag (and without `u`) applies, and
 * `Array.prototype.join`.
 */
module Text {

  /** Lower-cases ASCII letters and leaves every other character alone. */
  function LowerChar(c: char): char {
    if 'A' <= c <= 'Z' then (c as int + 32) as char else c
  }

  function Lower(s: string): string {
    seq(|s|, i requires 0 <= i < |s| => LowerChar(s[i]))
  }

  /**
   * A stand-in for Canonicalize(ch) of the ECMAScript regular-expression
   * semantics (`i` flag, no `u` flag) that upper-cases only the 26 ASCII
   * letters. It differs from Canonicalize on non-ASCII letters (`é` stays
   * `é` here but becomes `É` there). It agrees with it whenever one side of
   * the comparison is an ASCII character: Canonicalize never maps a
   * non-ASCII character onto an ASCII one. Every pattern character of this
   * program is ASCII, so `MatchesIgnoringCase` is the regular-expression
   * match.
   */
  function Canonical(c: char): char {
    if 'a' <= c <= 'z' then (c as int - 32) as char else c
  }

  /** Two characters match under the `i` flag iff their canonical forms agree. */
  predicate MatchesIgnoringCase(c: char, p: char) {
    Canonical(c) == Canonical(p)
  }

  /** Pattern characters that are written in lower case: letters, digits and the dot. */
  predicate IsLowerPatternChar(p: char) {
    ('a' <= p <= 'z') || ('0' <= p <= '9') || p == '.'
  }

  /**
   * Folding the subject to lower case and comparing with a lower-case
   * pattern character is exactly the regular-expression match.
   */
  lemma LowerCharMatches(c: char, p: char)
    requires IsLowerPatternChar(p)
    ensures LowerChar(c) == p <==> MatchesIgnoringCase(c, p)
  {
  }

  /**
   * The literal `lit` matches the end of `s`, character by character, under
   * the `i` flag: the meaning of an end-anchored regular expression whose
   * characters all stand for themselves, such as `/\.jpg$/i` for the
   * literal ".jpg" (the dot escaped).
   */
  predicate EndsWithIgnoringCase(s: string, lit: string) {
    |lit| <= |s| &&
    forall k :: 0 <= k < |lit| ==> MatchesIgnoringCase(s[|s| - |lit| + k], lit[k])
  }

  /**
   * Suffix test by folding the tail of `s` and comparing it with the
   * lower-case literal; agrees with the character-wise regular-expression
   * match in both directions.
   */
  function HasLowerSuffix(s: string, lit: string): (b: bool)
    requires forall k :: 0 <= k < |lit| ==> IsLowerPatternChar(lit[k])
    ensures b <==> EndsWithIgnoringCase(s, lit)
  {
    if |lit| > |s| then false
    else
      var tail := Lower(s[|s| - |lit|..]);
      assert tail == lit <==> EndsWithIgnoringCase(s, lit) by {
        forall k | 0 <= k < |lit|
          ensures tail[k] == lit[k] <==> MatchesIgnoringCase(s[|s| - |lit| + k], lit[k])
        {
          LowerCharMatches(s[|s| - |lit| + k], lit[k]);
        }
      }
      tail == lit
  }

  function TotalLength(parts: seq<string>): nat {
    if |parts| == 0 then 0 else |parts[0]| + TotalLength(parts[1..])
  }

  /**
   * `parts.join(sep)`: the parts in order with `sep` between neighbours; an
   * empty array joins to the empty string and a one-element array to that
   * element.
   */
  function Join(parts: seq<string>, sep: string): (r: string)
    ensures |parts| == 0 ==> r == ""
    ensures |parts| > 0 ==> |r| == TotalLength(parts) + |sep| * (|parts| - 1)
    ensures |parts| > 0 ==> r[..|parts[0]|] == parts[0]
    decreases |parts|
  {
    if |parts| == 0 then ""
    else if |parts| == 1 then parts[0]
    else parts[0] + sep + Join(parts[1..], sep)
  }

  /**
   * Join built from the left, the way a caller pushing one part at a time
   * sees it: appending a part adds the separator and that part.
   */
  lemma {:induction false} JoinSnoc(parts: seq<string>, x: string, sep: string)
    requires |parts| > 0
    ensures Join(parts + [x], sep) == Join(parts, sep) + sep + x
    decreases |parts|
  {
    if |parts| == 1 {
      assert parts + [x] == [parts[0], x];
      assert [parts[0], x][1..] == [x];
    } else {
      assert (parts + [x])[1..] == parts[1..] + [x];
      JoinSnoc(parts[1..], x, sep);
    }
  }

  /** A join of parts that are all non-empty is empty only when there are no parts. */
  lemma JoinEmptyIff(parts: seq<string>, sep: string)
    requires forall i :: 0 <= i < |parts| ==> parts[i] != ""
    ensures Join(parts, sep) == "" <==> |parts| == 0
  {
  }
}
